=== FILE: README.md ===
# Dog trainer decision logic in Dafny

This project models the three time-driven state machines of a dog-training
controller (ESP32 firmware) and proves properties of them:

- **Quiet reinforcement scheduler** (`QuietReinforcementManager`): the dog
  earns a success for every completed quiet window of the current level's
  length. Each success consumes one bit of the level's cyclic punch-card
  pattern. A set bit schedules a feeder dispense unless the reward cooldown
  is running. Enough successes promote the dog to the next level. A bark
  restarts the quiet window and may demote the level. Level, success count
  and pattern cursor are persisted in a key-value store that the next boot
  reads back.
- **Remote click detector** (`ClickDetector`): counts the pulses of each
  received RF burst and learns the pulse-count signature of one remote
  button. Matching bursts are presses. Presses are debounced and classified
  as single or double clicks.
- **Bark rate limiter** (`BLEBarkWindow`): a bark is punished only when a
  full window has passed since the last punished bark.

Every state is an immutable datatype and every operation a pure function.
The clock reading `now`, the persistent store (a `map<string, U8>`) and
the random number used for reshuffling (`draw`) are explicit inputs. All
timestamps are `U32` values. Elapsed time is `Clock.Elapsed`, the unsigned
32-bit subtraction the firmware uses. The wrap-around of `uint8_t`/`uint32_t`
counters, the `int`-to-`unsigned long` conversion and C's truncating
division are written out in module `Clock`.

Files: `clock.dfy` (module `Clock`), `reinforcement.dfy` (`Reinforcement`),
`reinforcement_properties.dfy` (`ReinforcementProperties`),
`click_detector.dfy` (`ClickDetection`), `click_properties.dfy`
(`ClickProperties`), `bark_window.dfy` (`BarkWindow`).

## Behaviour of the firmware worth knowing

- The detector knows only single and double clicks. It has no triple
  click and no lockout after a gesture. Each poll reads one burst.
- Only the very first burst seeds the signature. Every later matching
  burst is already a press and also refines the signature, so presses are
  recognised long before `isLearned` reports true, and nothing consults
  `isLearned` (`ClickProperties.PressesCountBeforeLearned`). The "learned"
  announcement in the seeding branch can never fire, because that branch
  always leaves exactly one sample (`ClickProperties.SeedingLeavesOneSample`).
- The pulse counter stops once the count reaches `maxPulses`, but the last
  item may add a second pulse, so the count can be `maxPulses + 1`.
- With a level of 2000 ms quiet that rewards every success and a 7000 ms
  cooldown, ticks every 2000 ms reward at 2000 only: the deadline is 9000,
  so the ticks at 4000, 6000 and 8000 are all blocked, and the fourth
  success promotes the level. The tick as written and the corrected tick
  agree here (`ReinforcementProperties.QuietScheduleScenarioAsWritten`,
  `ReinforcementProperties.QuietScheduleScenario`).
- The pattern cursor can leave the current level's pattern (see Findings).

## Model

| member | source | states |
|---|---|---|
| Clock.Elapsed | BLEBarkWindow.h:16 | time from `since` to `now` on the wrapping counter: the plain difference, or the difference plus 2^32 across a wrap |
| Clock.Add | QuietReinforcementManager.h:110 | `uint32_t` addition: exact below 2^32, otherwise wraps to a value smaller than the first operand |
| Clock.DeadlinePassed | QuietReinforcementManager.h:108-110 | for a deadline `d` after a start time, the wrapping time left until it is 0 or more than `d` exactly when at least `d` has elapsed since the start |
| Clock.IncU8 | QuietReinforcementManager.h:106 | `uint8_t` increment: 255 wraps to 0 |
| Clock.IncU32 | BLEBarkWindow.h:17 | `uint32_t` increment: 2^32 − 1 wraps to 0 |
| Clock.ToUnsigned | ClickDetector.cpp:111 | an `int` compared with an `unsigned long` is reinterpreted: negatives become values of at least 2^31 |
| Clock.TruncDiv | ClickDetector.cpp:78 | C division rounds toward zero, so the quotient lies between 0 and the dividend |
| Reinforcement.NewConfig | QuietReinforcementManager.h:15-28 | constructor defaults: 4 successes to advance, 7000 ms cooldown, no demotion |
| Reinforcement.SetDemotionLevels | QuietReinforcementManager.h:34-37 | changes the demotion count and nothing else in the configuration |
| Reinforcement.GetUChar | QuietReinforcementManager.h:45 | a stored byte, or the default when the key is absent |
| Reinforcement.Put | QuietReinforcementManager.h:164-166 | after the three writes the store holds the given level, successes and cursor; other keys are untouched |
| Reinforcement.SaveImmediate | QuietReinforcementManager.h:194-199 | the store holds the state's level, successes and cursor; other keys are untouched |
| Reinforcement.SaveThrottled | QuietReinforcementManager.h:201-206 | saves and records the time iff at least 10000 ms passed since the last throttled save; otherwise nothing changes |
| Reinforcement.BeginAsWritten | QuietReinforcementManager.h:43-56 | boot as written: out-of-range stored level becomes 0, stored successes and cursor are taken unchecked, volatile fields restart at `now` |
| Reinforcement.Begin | QuietReinforcementManager.h:43-56 | corrected boot: same level as written, cursor clamped to 0 when the level's pattern cannot index it, and the result satisfies the scheduler invariant for every store |
| Reinforcement.OnBark | QuietReinforcementManager.h:65-96 | quiet window restarts at `now`, successes and pending dispense cleared; with demotion and level > 0 the level drops to max(0, level − demotion), strictly lower, with cursor 0; otherwise level and cursor are kept; cooldown kept; throttled save; invariant preserved |
| Reinforcement.Decide | QuietReinforcementManager.h:178-192 | empty pattern rewards and keeps the cursor; otherwise rewards iff the bit under the cursor is non-zero, advances the cursor by one, wraps to 0 (or to a drawn index when shuffling), and keeps it inside the pattern |
| Reinforcement.Qualify | QuietReinforcementManager.h:105-121 | for a completed quiet window: the window restarts, a dispense of the level's length is scheduled iff the bit rewards and the cooldown is over (and only then the deadline moves to now + cooldown); successes wrap-increment, and reaching the target resets them and promotes to min(level + 1, levelCount − 1) |
| Reinforcement.CooldownOverAsWritten | QuietReinforcementManager.h:108 | for a deadline set `c` after a reward: right (passes iff `c` has elapsed) while nothing has wrapped; always passes once the deadline has wrapped and `now` has not; never passes once `now` has wrapped and the deadline has not |
| Reinforcement.CooldownOver | QuietReinforcementManager.h:108-110 | passes exactly when at least the cooldown has elapsed since the reward that set the deadline, at any counter position |
| Reinforcement.TickAsWritten | QuietReinforcementManager.h:99-129 | tick as written: nothing changes while a dispense is pending or the quiet window is short; otherwise the window restarts, a dispense is scheduled iff the bit rewards and `now >= cooldownUntil`, the cursor advances as the pattern read says, successes wrap-increment and reset on reaching the target with promotion to the next level if any, and the throttled save stores the new progress; returns true iff a non-zero dispense became pending |
| Reinforcement.Tick | QuietReinforcementManager.h:99-129 | corrected tick: the same guards, success counting, promotion rule, throttled save and return value; wrap-safe cooldown test; cursor rewound when the level changes; preserves the invariant that every pattern read is in bounds |
| Reinforcement.ConsumePendingDispense | QuietReinforcementManager.h:132-137 | returns the pending dispense and leaves none; nothing else changes |
| Reinforcement.SetLevel | QuietReinforcementManager.h:140-148 | out-of-range index changes neither state nor store; otherwise level set, successes and cursor 0, window restarted, and the store immediately holds (level, 0, 0) |
| Reinforcement.ResetState | QuietReinforcementManager.h:151-169 | level, successes, cursor, cooldown, pending dispense and last-save time all 0; the store holds zeros; the result satisfies the invariant for every valid configuration |
| ReinforcementProperties.ReadBits | QuietReinforcementManager.h:178-187 | reading `k` bits from a non-shuffling pattern yields `k` bits and leaves a usable cursor |
| ReinforcementProperties.ReadBitsFollowsPattern | QuietReinforcementManager.h:180-185 | successive reads return the pattern's bits in order and wrap to 0 exactly after the last one |
| ReinforcementProperties.FullCycle | QuietReinforcementManager.h:180-185 | one full cycle reads every bit once, in order, and returns the cursor to 0 |
| ReinforcementProperties.ShuffleReachesEveryIndex | QuietReinforcementManager.h:189-191 | on wrap-around a shuffling level can restart at any index of its pattern |
| ReinforcementProperties.SavedProgressSurvivesRestart | QuietReinforcementManager.h:194-199 | what a save writes from a consistent state, the next boot restores unchanged |
| ReinforcementProperties.SetLevelSurvivesRestart | QuietReinforcementManager.h:140-148 | a boot right after `setLevel` restores that level with no successes and cursor 0 |
| ReinforcementProperties.ResetSurvivesRestart | QuietReinforcementManager.h:151-169 | a boot right after `resetState` starts at level 0 with no successes and cursor 0 |
| ReinforcementProperties.BeginClampOnlyForForeignStores | QuietReinforcementManager.h:45-49 | on a store this configuration could have written, the corrected and the written boot agree |
| ReinforcementProperties.DecidedDispenseIsConsumedOnce | QuietReinforcementManager.h:125-137 | after a tick returns true, consuming yields the level's non-zero dispense once and then 0 |
| ReinforcementProperties.PendingDispenseBlocksTicks | QuietReinforcementManager.h:100 | while a dispense is pending both ticks change nothing and return false |
| ReinforcementProperties.CooldownOverIffElapsed | QuietReinforcementManager.h:108-110 | the corrected cooldown test passes exactly when at least the cooldown has elapsed since the reward, at any counter position |
| ReinforcementProperties.DispensesAreSpaced | QuietReinforcementManager.h:108-110 | with the corrected tick a dispense is decided only a full cooldown after the previous one |
| ReinforcementProperties.Step | QuietReinforcementManager.h:65-169 | every call of the main loop, and a power cycle, keeps the level and cursor usable from any store, and keeps a store restorable without clamping so |
| ReinforcementProperties.Run | QuietReinforcementManager.h:99-129 | any sequence of barks, ticks, consumes, level changes, resets and restarts, started from any state satisfying the invariant and any store, keeps every pattern read in bounds |
| ReinforcementProperties.BootEstablishesInvariant | QuietReinforcementManager.h:43-49 | booting from an arbitrary store yields a state satisfying the invariant, every run of events from that boot keeps it, and after a save the store is consistent too |
| ReinforcementProperties.QuietScheduleScenario | QuietReinforcementManager.h:99-129 | 2000 ms levels, always-reward pattern, 7000 ms cooldown, ticks every 2000 ms: reward at 2000 only, blocked at 4000, 6000, 8000, promotion to level 1 with cursor 0 at the fourth success |
| ReinforcementProperties.QuietScheduleScenarioAsWritten | QuietReinforcementManager.h:99-129 | the same schedule with the boot and tick as written gives the same rewards, blocks and promotion |
| ReinforcementProperties.QuietTargetGovernsTick | QuietReinforcementManager.h:174 | `currentQuietTargetMs` is the tick threshold: with nothing pending a tick before it changes nothing, and one at or after it restarts the window and counts a success |
| ReinforcementProperties.LevelUpLeavesCursorOutOfRange | QuietReinforcementManager.h:118-121 | the tick as written can promote while keeping a cursor the new level's pattern cannot index; the corrected tick rewinds it |
| ReinforcementProperties.RestoredCursorOutOfRange | QuietReinforcementManager.h:49 | the boot as written restores cursor 7 for a two-bit pattern; the corrected boot does not |
| ReinforcementProperties.CooldownAsWrittenMisjudgesWrap | QuietReinforcementManager.h:108-110 | the written cooldown test refuses a reward 12296 ms after the last one across the wrap and allows one 290 ms after it; the corrected test does the opposite |
| ReinforcementProperties.TickAsWrittenStarvesAfterWrap | QuietReinforcementManager.h:108 | a whole tick as written decides no dispense after the wrap where the corrected tick does |
| ClickDetection.NewDetector | ClickDetector.cpp:3-17 | pulse range 50..400, the given timings (600 ms and 50 ms when omitted), zeroed signature, nothing learned, not waiting, timestamps 0 |
| ClickDetection.PulsesIn | ClickDetector.cpp:59-60 | an item holds at most two pulses |
| ClickDetection.CountFrom | ClickDetector.cpp:58-61 | the loop adds at most two pulses per item and, once started below the cap, ends at most one above it |
| ClickDetection.CountPulses | ClickDetector.cpp:46-65 | the count is non-negative, at most twice the number of items, 0 for a non-positive cap and at most the cap plus one otherwise |
| ClickDetection.ReadPulseCount | ClickDetector.cpp:55-61 | the imperative loop computes the counting function |
| ClickDetection.CountFromUncapped | ClickDetector.cpp:58-61 | below the cap the loop counts every pulse |
| ClickDetection.CountFromReachesCap | ClickDetector.cpp:58-61 | the loop stops before the last item only once the cap is reached |
| ClickDetection.CountPulsesMeaning | ClickDetector.cpp:46-65 | the count equals all pulses when they fit under the cap, and is the cap or one more otherwise |
| ClickDetection.UpdateSignature | ClickDetector.cpp:67-86 | the first sample seeds min = max = avg = p with one sample; later ones give running min and max, one more sample, and the integer part of the running mean; the sample lies in the new range; min ≤ avg ≤ max is preserved |
| ClickDetection.AverageStaysInRange | ClickDetector.cpp:76-78 | the new truncated average lies between the new minimum and maximum |
| ClickDetection.Tolerance | ClickDetector.cpp:91-92 | the band half-width is at least 30 and at least the spread plus 20, and equals one of them |
| ClickDetection.MatchesSignature | ClickDetector.cpp:88-104 | false without a signature; otherwise true iff the burst is within the tolerance of the average; always true within 30 of it |
| ClickDetection.LearnedRangeMatches | ClickDetector.cpp:88-97 | every count inside the learned min..max range matches |
| ClickDetection.HandleButtonPress | ClickDetector.cpp:106-126 | the signature is always refined; a debounced press changes nothing else; an accepted press records its time and either starts waiting (no gesture) or emits a double click and stops waiting |
| ClickDetection.ProcessSignal | ClickDetector.cpp:128-151 | short bursts change nothing; the seeding burst only seeds the signature; a non-matching burst after seeding changes nothing; a matching one is a press; at most one gesture, and only a double click while waiting |
| ClickDetection.Update | ClickDetector.cpp:153-162 | at most one gesture per call; single click iff waiting and the timeout has elapsed; a double click only within the timeout, and always for a matching, non-bounced burst within it; the detector and the gestures after any single click are exactly those of processing the poll's burst after clearing a timed-out wait, so no double click without a matching burst; learning and the signature invariant are kept; the sample count rises by at most one |
| ClickDetection.Reset | ClickDetector.cpp:164-169 | signature cleared and zeroed, not waiting, not learned; last press and first click times kept |
| ClickProperties.SeedingLeavesOneSample | ClickDetector.cpp:132-143 | the seeding branch leaves exactly one sample and no gesture, so it never reports the button as learned |
| ClickProperties.LearningTakesThreeBursts | ClickDetector.cpp:171-173 | `isLearned` needs three samples: a detector without a signature is not learned after one or two bursts of any size |
| ClickProperties.ResetForgetsSignature | ClickDetector.cpp:164-169 | after a reset the next burst seeds a fresh signature from itself alone |
| ClickProperties.PressesCountBeforeLearned | ClickDetector.cpp:128-151 | three bursts 200 ms apart: seed, first press, double click; learned only after the third |
| ClickProperties.BounceIsDropped | ClickDetector.cpp:109-114 | a press 10 ms after an accepted one only refines the signature |
| ClickProperties.SingleClickAfterTimeout | ClickDetector.cpp:153-159 | with the 600 ms default, the poll 599 ms after the first press reports nothing and the poll at 600 ms reports a single click |
| ClickProperties.Polls | ClickDetector.cpp:153-162 | over any run of polls no more gestures than polls, a consistent signature, and learning once reached is kept |
| BarkWindow.NewWindow | BLEBarkWindow.h:12-13 | the given window (5000 ms when omitted), last punishment at 0, nothing suppressed |
| BarkWindow.ShouldPunish | BLEBarkWindow.h:15-30 | false iff less than the window has elapsed since the last punishment, and then only the suppressed counter increments; true resets the counter and records `now`; a zero window always punishes |
| BarkWindow.SetWindow | BLEBarkWindow.h:32-33 | `getWindow` returns the value just set; the other fields are unchanged |
| BarkWindow.Reset | BLEBarkWindow.h:34 | back to the constructor's state for the same window length |
| BarkWindow.PunishTimes | BLEBarkWindow.h:15-30 | the punished barks are some of the barks, in their order, and the first bark is punished whenever it comes a full window after the last punishment |
| BarkWindow.PunishmentsAreSpaced | BLEBarkWindow.h:16-28 | any two consecutive punishments are at least a window apart in elapsed time |
| BarkWindow.ZeroWindowPunishesEveryBark | BLEBarkWindow.h:16 | with a zero window every bark is punished |
| BarkWindow.After | BLEBarkWindow.h:15-30 | the window length never changes while barks are processed |
| BarkWindow.SuppressedBarksAreCounted | BLEBarkWindow.h:16-21 | while nothing is punished the last punishment time stays and the counter counts every bark modulo 2^32 |

## Left out

- Hardware: `setupRMT`, the ring-buffer acquisition and return in `readPulseCount`, `pinMode` and the detector's `begin`. The items a burst delivered are an input sequence. A missing ring buffer or an empty receive is the empty sequence, which counts 0 pulses as the firmware returns.
- `Serial` output, `_log`, `setLogging` and `getStatus`: they only produce text.
- The `Preferences` library: the store is a map from key to byte, and `_prefs.begin` with its namespace is not modelled.
- `esp_random`, `randomSeed` and `random`: the shuffle takes an arbitrary number `draw` and uses `draw % patternLen`, which covers every index of the pattern.
- `millis()`: an explicit `now`. In `ClickDetector::update` the timeout check and `handleButtonPress` read the clock separately, up to the 10 ms receive wait apart. The model uses one `now` for both.
- Callbacks and `setCallbacks`: `update` returns the gestures it would have reported, in order.
- The setters `setDoubleClickTime`, `setDebounceTime`, `setMinPulses` and `setMaxPulses`, and the getters `currentLevel`, `successesAtLevel`, `lastBarkMs` and `getDemotionLevels`: each assigns or reads one field, which is Dafny's record update or field access.
- The `rxPin` setting: it is hardware only.
- `LevelConfig` with a pattern pointer and a separate `patternLen`: the pattern is a sequence whose length is `patternLen`. A null pointer and a zero length behave identically in `_decideReinforcement`, so both are the empty sequence. An array shorter than its `patternLen` is not represented.
- `begin` is modelled for a freshly constructed manager: `lastSaveMs` is the constructor's 0.
- Overflow of C `int` in the signature arithmetic (`avgPulses * sampleCount`) and in the pulse count: these are unbounded integers.
- Reinforcement.CooldownOver: with the deadline 0 that boot and `resetState` store, the corrected test refuses rewards while `now` is within the last `cooldownMs` before the counter wraps, where the test as written allows them.

## Findings

| source | as written | input that shows it | evidently intended | confidence | as-written member | corrected member |
|---|---|---|---|---|---|---|
| QuietReinforcementManager.h:118-121 | a level-up keeps `_patternIndex`, so the next `tick` reads `pattern[_patternIndex]` at line 180 of a new level whose pattern may be shorter | levels with patterns {1,1} and {1}, one success to advance, boot at 0, tick at 1000: level 1 with cursor 1, and the next tick reads index 1 of a one-entry array | rewind the cursor on a level change, as `onBark` and `setLevel` already do | high; not executed | Reinforcement.TickAsWritten, shown by ReinforcementProperties.LevelUpLeavesCursorOutOfRange | Reinforcement.Tick, with ReinforcementProperties.Run |
| QuietReinforcementManager.h:49 | `begin` restores `pidx` without a range check, although line 46 clamps the level | one level with pattern {1,0} and a store holding pidx = 7: the first qualifying tick reads index 7 | clamp the cursor as the level is clamped | medium (needs a store this configuration did not write, for example after the level table changed); not executed | Reinforcement.BeginAsWritten, shown by ReinforcementProperties.RestoredCursorOutOfRange | Reinforcement.Begin, with ReinforcementProperties.BootEstablishesInvariant |
| QuietReinforcementManager.h:108-110 | the cooldown test `nowMs >= _rewardCooldownUntil` compares against a deadline computed with a wrapping addition | reward at 4294960000 stores 4294967000; after the counter wraps, a tick at 5000 (12296 ms later) is refused, and rewards stay refused until the counter climbs back to 4294967000, about 49 days. A reward at 4294967000 stores 6704, so a tick 290 ms later passes | a minimum spacing of `cooldownMs` in wrap-safe elapsed time, like every other timing check in the firmware | high; not executed | Reinforcement.CooldownOverAsWritten, shown by ReinforcementProperties.CooldownAsWrittenMisjudgesWrap and ReinforcementProperties.TickAsWrittenStarvesAfterWrap | Reinforcement.CooldownOver, with ReinforcementProperties.CooldownOverIffElapsed |

=== FILE: bark_window.dfy ===
/**
 The bark rate limiter (`BLEBarkWindow`).

 A bark reported over Bluetooth is punished only if at least the window
 length has passed since the last punished bark; barks inside the window
 are counted as suppressed. Elapsed time is unsigned 32-bit subtraction.
 */
module BarkWindow {
  import opened Clock

  const DefaultWindowMs: U32 := 5000

  datatype Window = Window(windowMs: U32, lastPunishMs: U32, suppressedCount: U32)

  /** The constructor: nothing punished yet (as if at time 0), nothing
      suppressed; the window defaults to `DefaultWindowMs`. */
  function NewWindow(windowMs: U32 := DefaultWindowMs): (w: Window)
    ensures w.windowMs == windowMs && w.lastPunishMs == 0 && w.suppressedCount == 0
  {
    Window(windowMs, 0, 0)
  }

  /** `shouldPunish`: inside the window the bark is suppressed and counted;
      otherwise it is punished, the window restarts at `now` and the count
      is cleared. */
  function ShouldPunish(w: Window, now: U32): (r: (Window, bool))
    ensures !r.1 <==> Elapsed(now, w.lastPunishMs) < w.windowMs
    ensures !r.1 ==>
      r.0.suppressedCount == IncU32(w.suppressedCount)
      && r.0.lastPunishMs == w.lastPunishMs && r.0.windowMs == w.windowMs
    ensures r.1 ==>
      r.0.lastPunishMs == now && r.0.suppressedCount == 0 && r.0.windowMs == w.windowMs
    ensures w.windowMs == 0 ==> r.1
  {
    if Elapsed(now, w.lastPunishMs) < w.windowMs then
      (w.(suppressedCount := IncU32(w.suppressedCount)), false)
    else
      (w.(suppressedCount := 0, lastPunishMs := now), true)
  }

  /** `setWindow`; `getWindow` reads the field back. */
  function SetWindow(w: Window, ms: U32): (r: Window)
    ensures GetWindow(r) == ms
    ensures r.lastPunishMs == w.lastPunishMs && r.suppressedCount == w.suppressedCount
  {
    w.(windowMs := ms)
  }

  function GetWindow(w: Window): U32 {
    w.windowMs
  }

  /** `reset`: back to the constructor's state, keeping the window length. */
  function Reset(w: Window): (r: Window)
    ensures r == NewWindow(w.windowMs)
  {
    w.(lastPunishMs := 0, suppressedCount := 0)
  }

  /** `xs` is `ys` with some elements left out, the rest in their order. */
  predicate IsSubsequence(xs: seq<U32>, ys: seq<U32>)
    decreases |ys|
  {
    if |xs| == 0 then true
    else if |ys| == 0 then false
    else (xs[0] == ys[0] && IsSubsequence(xs[1..], ys[1..])) || IsSubsequence(xs, ys[1..])
  }

  /** The times, among the bark times `ts`, at which a bark is punished:
      some of the bark times, in their order, and the first bark whenever
      it comes a full window after the last punishment. */
  function PunishTimes(w: Window, ts: seq<U32>): (ps: seq<U32>)
    ensures |ps| <= |ts|
    ensures IsSubsequence(ps, ts)
    ensures |ts| > 0 && Elapsed(ts[0], w.lastPunishMs) >= w.windowMs ==> |ps| > 0 && ps[0] == ts[0]
    decreases |ts|
  {
    if |ts| == 0 then []
    else
      var (w', punished) := ShouldPunish(w, ts[0]);
      var rest := PunishTimes(w', ts[1..]);
      var ps := (if punished then [ts[0]] else []) + rest;
      assert punished ==> ps[0] == ts[0] && ps[1..] == rest;
      assert !punished ==> ps == rest;
      ps
  }

  /** Each punishment comes at least `window` after the one before it
      (the first one, at least `window` after `last`). */
  predicate Spaced(last: U32, ps: seq<U32>, window: U32)
    decreases |ps|
  {
    |ps| == 0 || (Elapsed(ps[0], last) >= window && Spaced(ps[0], ps[1..], window))
  }

  /** Any two consecutive punishments are at least a window apart. */
  lemma {:induction false} PunishmentsAreSpaced(w: Window, ts: seq<U32>)
    ensures Spaced(w.lastPunishMs, PunishTimes(w, ts), w.windowMs)
    decreases |ts|
  {
    if |ts| > 0 {
      var (w', punished) := ShouldPunish(w, ts[0]);
      PunishmentsAreSpaced(w', ts[1..]);
      if punished {
        assert PunishTimes(w, ts) == [ts[0]] + PunishTimes(w', ts[1..]);
        assert ([ts[0]] + PunishTimes(w', ts[1..]))[1..] == PunishTimes(w', ts[1..]);
      } else {
        assert PunishTimes(w, ts) == PunishTimes(w', ts[1..]);
      }
    }
  }

  /** With a zero window no bark is ever suppressed. */
  lemma {:induction false} ZeroWindowPunishesEveryBark(w: Window, ts: seq<U32>)
    requires w.windowMs == 0
    ensures PunishTimes(w, ts) == ts
    decreases |ts|
  {
    if |ts| > 0 {
      var (w', punished) := ShouldPunish(w, ts[0]);
      ZeroWindowPunishesEveryBark(w', ts[1..]);
      assert [ts[0]] + ts[1..] == ts;
    }
  }

  /** The window after every bark of `ts`. */
  function After(w: Window, ts: seq<U32>): (r: Window)
    ensures r.windowMs == w.windowMs
    decreases |ts|
  {
    if |ts| == 0 then w else After(ShouldPunish(w, ts[0]).0, ts[1..])
  }

  /** While no bark is punished the last punishment time stays put and the
      suppressed counter counts every bark (modulo 2^32). */
  lemma {:induction false} SuppressedBarksAreCounted(w: Window, ts: seq<U32>)
    requires PunishTimes(w, ts) == []
    ensures After(w, ts).lastPunishMs == w.lastPunishMs
    ensures After(w, ts).suppressedCount == (w.suppressedCount + |ts|) % Modulus
    decreases |ts|
  {
    if |ts| > 0 {
      var (w', punished) := ShouldPunish(w, ts[0]);
      SuppressedBarksAreCounted(w', ts[1..]);
    }
  }
}

=== FILE: click_detector.dfy ===
/**
 The RF remote click detector (`ClickDetector`).

 Each poll reads one burst from the receiver and counts its pulses. The
 first burst long enough to be a button seeds a pulse-count signature
 (running min, max, integer average, sample count); from then on every
 burst whose count falls inside the signature's tolerance band is a button
 press and also refines the signature. Presses drive a two-state machine:
 the first press starts waiting for a second; a second press before the
 single-click timeout is a double click, otherwise the timeout reports a
 single click. Presses closer together than the debounce time are dropped.

 The registered callbacks are replaced by the sequence of gestures a call
 emits, in the order the callbacks would run. The receiver is replaced by
 the sequence of items the ring buffer delivered. `millis()` is the
 explicit `now`.
 */
module ClickDetection {
  import opened Clock

  // ---------------------------------------------------------------- config

  const DefaultDoubleClickMs: I32 := 600
  const DefaultDebounceMs: I32 := 50
  const DefaultMinPulses: I32 := 50
  const DefaultMaxPulses: I32 := 400

  /** The timing and pulse-range settings (all C `int`). */
  datatype Config = Config(
    doubleClickMs: I32,
    debounceMs: I32,
    minPulses: I32,
    maxPulses: I32)

  // ----------------------------------------------------------------- state

  /** The learned fingerprint of one remote button. */
  datatype Signature = Signature(
    minPulses: int,
    maxPulses: int,
    avgPulses: int,
    sampleCount: int)

  const EmptySignature: Signature := Signature(0, 0, 0, 0)

  datatype Detector = Detector(
    signature: Signature,
    hasSignature: bool,
    lastPress: U32,
    firstClickTime: U32,
    waitingForDouble: bool)

  /** The two gestures the detector reports. */
  datatype Gesture = SingleClick | DoubleClick

  /** The detector after a call and the gestures the call emitted. */
  datatype Reaction = Reaction(detector: Detector, emitted: seq<Gesture>)

  /** The constructor: the pulse range is fixed at 50..400, the timings are
      arguments (`DefaultDoubleClickMs` and `DefaultDebounceMs` when omitted), and nothing is learned. */
  function NewDetector(doubleClickMs: I32 := DefaultDoubleClickMs, debounceMs: I32 := DefaultDebounceMs): (r: (Config, Detector))
    ensures r.0.doubleClickMs == doubleClickMs && r.0.debounceMs == debounceMs
    ensures r.0.minPulses == 50 && r.0.maxPulses == 400
    ensures !r.1.hasSignature && r.1.signature == EmptySignature
    ensures !r.1.waitingForDouble && !IsLearned(r.1)
    ensures r.1.lastPress == 0 && r.1.firstClickTime == 0
  {
    (Config(doubleClickMs, debounceMs, DefaultMinPulses, DefaultMaxPulses),
     Detector(EmptySignature, false, 0, 0, false))
  }

  /** A learned signature brackets its average and has seen a sample. */
  predicate SignatureInv(d: Detector) {
    d.hasSignature ==>
      && d.signature.minPulses <= d.signature.avgPulses <= d.signature.maxPulses
      && d.signature.sampleCount >= 1
  }

  /** `isLearned`: at least three samples. Nothing else in the detector
      consults it. */
  predicate IsLearned(d: Detector) {
    d.hasSignature && d.signature.sampleCount >= 3
  }

  // --------------------------------------------------------- pulse counting

  /** One receiver item: two durations, each one pulse when non-zero. */
  datatype Item = Item(duration0: nat, duration1: nat)

  function PulsesIn(item: Item): (n: nat)
    ensures n <= 2
  {
    (if item.duration0 > 0 then 1 else 0) + (if item.duration1 > 0 then 1 else 0)
  }

  /** Every pulse in the items, with no cap. */
  function TotalPulses(items: seq<Item>): nat
    decreases |items|
  {
    if |items| == 0 then 0 else PulsesIn(items[0]) + TotalPulses(items[1..])
  }

  /** The counting loop of `readPulseCount` from a running count `count`:
      items are counted until they run out or the count reaches
      `maxPulses`, which the last item may overshoot by one. */
  function CountFrom(items: seq<Item>, maxPulses: int, count: int): (n: int)
    ensures count <= n <= count + 2 * |items|
    ensures count >= maxPulses ==> n == count
    ensures count < maxPulses ==> n <= maxPulses + 1
    decreases |items|
  {
    if |items| == 0 || count >= maxPulses then count
    else CountFrom(items[1..], maxPulses, count + PulsesIn(items[0]))
  }

  /** `readPulseCount` on the items it received (none when the ring buffer
      is missing or empty). */
  function CountPulses(items: seq<Item>, maxPulses: int): (n: int)
    ensures 0 <= n <= 2 * |items|
    ensures maxPulses <= 0 ==> n == 0
    ensures maxPulses > 0 ==> n <= maxPulses + 1
  {
    CountFrom(items, maxPulses, 0)
  }

  /** The loop itself, as the firmware writes it. */
  method ReadPulseCount(items: seq<Item>, maxPulses: I32) returns (pulseCount: int)
    ensures pulseCount == CountPulses(items, maxPulses)
  {
    pulseCount := 0;
    var i := 0;
    while i < |items| && pulseCount < maxPulses
      invariant 0 <= i <= |items|
      invariant CountFrom(items[i..], maxPulses, pulseCount) == CountPulses(items, maxPulses)
    {
      assert items[i..][1..] == items[i + 1..];
      if items[i].duration0 > 0 {
        pulseCount := pulseCount + 1;
      }
      if items[i].duration1 > 0 {
        pulseCount := pulseCount + 1;
      }
      i := i + 1;
    }
  }

  /** Below the cap the count is exact. */
  lemma {:induction false} CountFromUncapped(items: seq<Item>, maxPulses: int, count: int)
    requires count + TotalPulses(items) <= maxPulses
    ensures CountFrom(items, maxPulses, count) == count + TotalPulses(items)
    decreases |items|
  {
    if |items| > 0 && count < maxPulses {
      CountFromUncapped(items[1..], maxPulses, count + PulsesIn(items[0]));
    }
  }

  /** The loop stops early only once the cap is reached. */
  lemma {:induction false} CountFromReachesCap(items: seq<Item>, maxPulses: int, count: int)
    ensures CountFrom(items, maxPulses, count) >= count + TotalPulses(items)
         || CountFrom(items, maxPulses, count) >= maxPulses
    decreases |items|
  {
    if |items| > 0 && count < maxPulses {
      CountFromReachesCap(items[1..], maxPulses, count + PulsesIn(items[0]));
    }
  }

  /** The count is every pulse of the burst when that does not exceed the
      cap; otherwise it is the cap or one more. */
  lemma CountPulsesMeaning(items: seq<Item>, maxPulses: int)
    ensures TotalPulses(items) <= maxPulses ==> CountPulses(items, maxPulses) == TotalPulses(items)
    ensures TotalPulses(items) > maxPulses > 0 ==>
      maxPulses <= CountPulses(items, maxPulses) <= maxPulses + 1
  {
    if TotalPulses(items) <= maxPulses {
      CountFromUncapped(items, maxPulses, 0);
    } else {
      CountFromReachesCap(items, maxPulses, 0);
    }
  }

  // -------------------------------------------------------------- signature

  /** `updateSignature`: the first sample seeds the signature; later samples
      widen the range and fold into the integer running average. */
  function UpdateSignature(d: Detector, pulses: int): (r: Detector)
    requires d.hasSignature ==> d.signature.sampleCount >= 0
    ensures r.hasSignature
    ensures !d.hasSignature ==> r.signature == Signature(pulses, pulses, pulses, 1)
    ensures d.hasSignature ==>
      && r.signature.minPulses == Min(d.signature.minPulses, pulses)
      && r.signature.maxPulses == Max(d.signature.maxPulses, pulses)
      && r.signature.sampleCount == d.signature.sampleCount + 1
    ensures var n := d.signature.sampleCount;
      var total := d.signature.avgPulses * n + pulses;
      d.hasSignature && total >= 0 ==>
        r.signature.avgPulses * (n + 1) <= total < r.signature.avgPulses * (n + 1) + (n + 1)
    ensures r.signature.minPulses <= pulses <= r.signature.maxPulses
    ensures SignatureInv(d) ==> SignatureInv(r)
    ensures r.lastPress == d.lastPress && r.firstClickTime == d.firstClickTime
    ensures r.waitingForDouble == d.waitingForDouble
  {
    if !d.hasSignature then
      d.(signature := Signature(pulses, pulses, pulses, 1), hasSignature := true)
    else
      var sig := d.signature;
      var n := sig.sampleCount;
      var lo := Min(sig.minPulses, pulses);
      var hi := Max(sig.maxPulses, pulses);
      var total := sig.avgPulses * n + pulses;
      var avg := TruncDiv(total, n + 1);
      AverageStaysInRange(d, pulses);
      TruncDivBracket(total, n + 1);
      d.(signature := Signature(lo, hi, avg, n + 1))
  }

  /** The new average of a consistent signature lies between the new
      minimum and maximum. */
  lemma AverageStaysInRange(d: Detector, pulses: int)
    requires d.hasSignature ==> d.signature.sampleCount >= 0
    ensures d.hasSignature && SignatureInv(d) ==>
      var sig := d.signature;
      var n := sig.sampleCount;
      var avg := TruncDiv(sig.avgPulses * n + pulses, n + 1);
      Min(sig.minPulses, pulses) <= avg <= Max(sig.maxPulses, pulses)
  {
    if !d.hasSignature || !SignatureInv(d) {
      return;
    }
    var sig := d.signature;
    var n := sig.sampleCount;
    var lo := Min(sig.minPulses, pulses);
    var hi := Max(sig.maxPulses, pulses);
    var total := sig.avgPulses * n + pulses;
    MulMonotone(lo, sig.avgPulses, n);
    MulMonotone(sig.avgPulses, hi, n);
    assert lo * (n + 1) == lo * n + lo;
    assert hi * (n + 1) == hi * n + hi;
    TruncDivBetween(total, n + 1, lo, hi);
  }

  function Min(a: int, b: int): int { if a < b then a else b }
  function Max(a: int, b: int): int { if a > b then a else b }
  function Abs(x: int): nat { if x < 0 then -x else x }

  /** The half-width of the acceptance band: the learned spread plus 20,
      but never below 30. */
  function Tolerance(sig: Signature): (tol: int)
    ensures tol >= 30
    ensures tol >= sig.maxPulses - sig.minPulses + 20
    ensures tol == 30 || tol == sig.maxPulses - sig.minPulses + 20
  {
    Max(30, (sig.maxPulses - sig.minPulses) + 20)
  }

  /** `matchesSignature`: never without a signature; otherwise the burst
      must fall within the tolerance band around the average. */
  function MatchesSignature(d: Detector, pulses: int): (m: bool)
    ensures m ==> d.hasSignature
    ensures m <==> d.hasSignature && Abs(pulses - d.signature.avgPulses) <= Tolerance(d.signature)
    ensures d.hasSignature && Abs(pulses - d.signature.avgPulses) <= 30 ==> m
  {
    if !d.hasSignature then false
    else
      var tolerance := Tolerance(d.signature);
      var minAccepted := d.signature.avgPulses - tolerance;
      var maxAccepted := d.signature.avgPulses + tolerance;
      pulses >= minAccepted && pulses <= maxAccepted
  }

  /** Every pulse count inside the learned range is accepted: the band
      always covers the samples the signature was built from. */
  lemma LearnedRangeMatches(d: Detector, pulses: int)
    requires d.hasSignature && SignatureInv(d)
    requires d.signature.minPulses <= pulses <= d.signature.maxPulses
    ensures MatchesSignature(d, pulses)
  {
  }

  // ---------------------------------------------------------- click machine

  /** `handleButtonPress`: the burst refines the signature in every case;
      a press within the debounce time of the last accepted one goes no
      further; otherwise it either starts waiting for a second press or is
      that second press and reports a double click. */
  function HandleButtonPress(cfg: Config, d: Detector, pulses: int, now: U32): (r: Reaction)
    requires d.hasSignature ==> d.signature.sampleCount >= 0
    ensures r.detector.signature == UpdateSignature(d, pulses).signature && r.detector.hasSignature
    ensures Elapsed(now, d.lastPress) < ToUnsigned(cfg.debounceMs) ==>
      && r.emitted == []
      && r.detector.lastPress == d.lastPress
      && r.detector.firstClickTime == d.firstClickTime
      && r.detector.waitingForDouble == d.waitingForDouble
    ensures Elapsed(now, d.lastPress) >= ToUnsigned(cfg.debounceMs) ==>
      && r.detector.lastPress == now
      && (d.waitingForDouble ==>
            r.emitted == [DoubleClick] && !r.detector.waitingForDouble
            && r.detector.firstClickTime == d.firstClickTime)
      && (!d.waitingForDouble ==>
            r.emitted == [] && r.detector.waitingForDouble && r.detector.firstClickTime == now)
    ensures SignatureInv(d) ==> SignatureInv(r.detector)
  {
    var d1 := UpdateSignature(d, pulses);
    if Elapsed(now, d.lastPress) < ToUnsigned(cfg.debounceMs) then
      Reaction(d1, [])
    else if d1.waitingForDouble then
      Reaction(d1.(lastPress := now, waitingForDouble := false), [DoubleClick])
    else
      Reaction(d1.(lastPress := now, waitingForDouble := true, firstClickTime := now), [])
  }

  /** `processSignal` for a burst of `pulses` pulses: short bursts are
      noise; without a signature the burst seeds one and is not a press;
      with one, a matching burst is a press and any other burst is
      ignored. */
  function ProcessSignal(cfg: Config, d: Detector, pulses: int, now: U32): (r: Reaction)
    requires d.hasSignature ==> d.signature.sampleCount >= 0
    ensures pulses < cfg.minPulses ==> r == Reaction(d, [])
    ensures pulses >= cfg.minPulses && !d.hasSignature ==>
      && r.emitted == []
      && r.detector.hasSignature && r.detector.signature == Signature(pulses, pulses, pulses, 1)
      && r.detector.lastPress == d.lastPress && r.detector.firstClickTime == d.firstClickTime
      && r.detector.waitingForDouble == d.waitingForDouble
    ensures pulses >= cfg.minPulses && d.hasSignature && !MatchesSignature(d, pulses) ==>
      r == Reaction(d, [])
    ensures pulses >= cfg.minPulses && MatchesSignature(d, pulses) ==>
      r == HandleButtonPress(cfg, d, pulses, now)
    ensures |r.emitted| <= 1
    ensures r.emitted == [DoubleClick] ==> d.waitingForDouble
    ensures r.emitted != [] ==> r.emitted == [DoubleClick]
    ensures SignatureInv(d) ==> SignatureInv(r.detector)
  {
    if pulses < cfg.minPulses then
      Reaction(d, [])
    else if !d.hasSignature then
      Reaction(UpdateSignature(d, pulses), [])
    else if MatchesSignature(d, pulses) then
      HandleButtonPress(cfg, d, pulses, now)
    else
      Reaction(d, [])
  }

  /** `update`: first the single-click timeout, then one burst. */
  function Update(cfg: Config, d: Detector, now: U32, items: seq<Item>): (r: Reaction)
    requires d.hasSignature ==> d.signature.sampleCount >= 0
    ensures |r.emitted| <= 1
    ensures r.emitted == [SingleClick] <==>
      d.waitingForDouble && Elapsed(now, d.firstClickTime) >= ToUnsigned(cfg.doubleClickMs)
    ensures r.emitted == [DoubleClick] ==>
      d.waitingForDouble && Elapsed(now, d.firstClickTime) < ToUnsigned(cfg.doubleClickMs)
    ensures var p := CountPulses(items, cfg.maxPulses);
      d.waitingForDouble && Elapsed(now, d.firstClickTime) < ToUnsigned(cfg.doubleClickMs)
      && p >= cfg.minPulses && MatchesSignature(d, p)
      && Elapsed(now, d.lastPress) >= ToUnsigned(cfg.debounceMs) ==>
        r.emitted == [DoubleClick]
    ensures var timedOut := d.waitingForDouble && Elapsed(now, d.firstClickTime) >= ToUnsigned(cfg.doubleClickMs);
      r.detector == ProcessSignal(cfg, d.(waitingForDouble := d.waitingForDouble && !timedOut),
                                  CountPulses(items, cfg.maxPulses), now).detector
    ensures var timedOut := d.waitingForDouble && Elapsed(now, d.firstClickTime) >= ToUnsigned(cfg.doubleClickMs);
      r.emitted == (if timedOut then [SingleClick] else [])
        + ProcessSignal(cfg, d.(waitingForDouble := d.waitingForDouble && !timedOut),
                        CountPulses(items, cfg.maxPulses), now).emitted
    ensures SignatureInv(d) ==> SignatureInv(r.detector)
    ensures IsLearned(d) ==> IsLearned(r.detector)
    ensures d.hasSignature ==>
      r.detector.signature.sampleCount == d.signature.sampleCount
      || r.detector.signature.sampleCount == d.signature.sampleCount + 1
  {
    var timedOut := d.waitingForDouble && Elapsed(now, d.firstClickTime) >= ToUnsigned(cfg.doubleClickMs);
    var d1 := if timedOut then d.(waitingForDouble := false) else d;
    var p := ProcessSignal(cfg, d1, CountPulses(items, cfg.maxPulses), now);
    assert timedOut ==> p.emitted == [] && [SingleClick] + p.emitted == [SingleClick];
    Reaction(p.detector, if timedOut then [SingleClick] + p.emitted else p.emitted)
  }

  /** `reset`: forgets the signature and any half-finished click, but not
      the time of the last press. */
  function Reset(d: Detector): (r: Detector)
    ensures !r.hasSignature && r.signature == EmptySignature && !r.waitingForDouble
    ensures r.lastPress == d.lastPress && r.firstClickTime == d.firstClickTime
    ensures !IsLearned(r) && SignatureInv(r)
  {
    d.(hasSignature := false, signature := EmptySignature, waitingForDouble := false)
  }
}

=== FILE: click_properties.dfy ===
/**
 Properties of the click detector over several calls: how learning really
 proceeds, the effect of `reset`, worked press sequences, and the
 one-gesture-per-poll bound along any run of polls.
 */
module ClickProperties {
  import opened Clock
  import opened ClickDetection

  /** The seeding branch of `processSignal` always leaves exactly one sample,
      so its "learned" announcement (sample count of at least 3) is never
      reached there; the second and third samples arrive as presses. */
  lemma SeedingLeavesOneSample(cfg: Config, d: Detector, pulses: int, now: U32)
    requires !d.hasSignature
    requires pulses >= cfg.minPulses
    ensures ProcessSignal(cfg, d, pulses, now).detector.signature.sampleCount == 1
    ensures !IsLearned(ProcessSignal(cfg, d, pulses, now).detector)
    ensures ProcessSignal(cfg, d, pulses, now).emitted == []
  {
  }

  /** `isLearned` asks for three samples and a burst adds at most one, so a
      detector without a signature is not learned after any two bursts. */
  lemma LearningTakesThreeBursts(cfg: Config, d: Detector, p1: int, t1: U32, p2: int, t2: U32)
    requires !d.hasSignature
    ensures !IsLearned(ProcessSignal(cfg, d, p1, t1).detector)
    ensures !IsLearned(ProcessSignal(cfg, ProcessSignal(cfg, d, p1, t1).detector, p2, t2).detector)
  {
  }

  /** After `reset`, the next long-enough burst seeds a brand-new signature
      from that burst alone, whatever was learned before. */
  lemma ResetForgetsSignature(cfg: Config, d: Detector, pulses: int, now: U32)
    requires pulses >= cfg.minPulses
    ensures var r := ProcessSignal(cfg, Reset(d), pulses, now);
      && r.detector.signature == Signature(pulses, pulses, pulses, 1)
      && r.emitted == []
      && !r.detector.waitingForDouble
  {
  }

  /** Three bursts of 100 pulses from a fresh detector with the default
      settings, 200 ms apart. The first seeds the signature; the second is
      already a press and starts waiting; the third is a double click, and
      only then does the detector count as learned. */
  lemma PressesCountBeforeLearned()
    ensures var (cfg, d0) := NewDetector();
      var r1 := ProcessSignal(cfg, d0, 100, 1000);
      var r2 := ProcessSignal(cfg, r1.detector, 100, 1200);
      var r3 := ProcessSignal(cfg, r2.detector, 100, 1400);
      && r1.emitted == [] && r1.detector.signature.sampleCount == 1 && !IsLearned(r1.detector)
      && r2.emitted == [] && r2.detector.waitingForDouble && r2.detector.firstClickTime == 1200
      && !IsLearned(r2.detector)
      && r3.emitted == [DoubleClick] && !r3.detector.waitingForDouble && IsLearned(r3.detector)
  {
  }

  /** A press 10 ms after an accepted press is a bounce: it refines the
      signature and changes nothing else. */
  lemma BounceIsDropped()
    ensures var cfg := Config(DefaultDoubleClickMs, DefaultDebounceMs, DefaultMinPulses, DefaultMaxPulses);
      var d := Detector(Signature(100, 100, 100, 3), true, 0, 0, true);
      var r := ProcessSignal(cfg, d, 100, 10);
      && r.emitted == []
      && r.detector.waitingForDouble && r.detector.lastPress == 0 && r.detector.firstClickTime == 0
      && r.detector.signature.sampleCount == 4
  {
  }

  /** A first press at 1200 with nothing after it: the poll at 1799 reports
      nothing, the poll at 1800 reports a single click. */
  lemma SingleClickAfterTimeout()
    ensures var cfg := Config(DefaultDoubleClickMs, DefaultDebounceMs, DefaultMinPulses, DefaultMaxPulses);
      var d := Detector(Signature(100, 100, 100, 2), true, 1200, 1200, true);
      && Update(cfg, d, 1799, []).emitted == []
      && Update(cfg, d, 1800, []).emitted == [SingleClick]
      && !Update(cfg, d, 1800, []).detector.waitingForDouble
  {
  }

  /** One poll: the time it happens and the receiver items it reads. */
  datatype Poll = Poll(now: U32, items: seq<Item>)

  /** Runs `update` once per poll and collects the gestures in order. Each
      poll reports at most one gesture, the signature stays consistent, and
      learning, once reached, is kept. */
  function Polls(cfg: Config, d: Detector, polls: seq<Poll>): (r: Reaction)
    requires SignatureInv(d)
    ensures |r.emitted| <= |polls|
    ensures SignatureInv(r.detector)
    ensures IsLearned(d) ==> IsLearned(r.detector)
    decreases |polls|
  {
    if |polls| == 0 then Reaction(d, [])
    else
      var first := Update(cfg, d, polls[0].now, polls[0].items);
      var rest := Polls(cfg, first.detector, polls[1..]);
      Reaction(rest.detector, first.emitted + rest.emitted)
  }
}

=== FILE: clock.dfy ===
/**
 Fixed-width integer arithmetic shared by the three state machines.

 The firmware keeps every timestamp in an unsigned 32-bit millisecond
 counter that wraps after about 49.7 days, so "time since" is unsigned
 modular subtraction. Counters stored in `uint8_t` and `uint32_t` fields
 wrap on increment. Dafny integers are unbounded, so each wrap is spelled
 out here once.
 */
module Clock {

  /** 2^32: the period of the millisecond counter. */
  const Modulus: int := 0x1_0000_0000

  /** `uint32_t` and 32-bit `unsigned long`. */
  type U32 = x: int | 0 <= x < 0x1_0000_0000

  /** `uint8_t`. */
  type U8 = x: int | 0 <= x < 0x100

  /** 32-bit `int`. */
  type I32 = x: int | -0x8000_0000 <= x < 0x8000_0000

  /** Unsigned subtraction `now - since`: milliseconds from `since` to `now`
      on the wrapping counter. */
  function Elapsed(now: U32, since: U32): (d: U32)
    ensures since <= now ==> d == now - since
    ensures now < since ==> d == Modulus - (since - now)
  {
    (now - since) % Modulus
  }

  /** Unsigned 32-bit addition, which wraps past 2^32 - 1. */
  function Add(a: U32, b: U32): (r: U32)
    ensures a + b < Modulus ==> r == a + b
    ensures a + b >= Modulus ==> r == a + b - Modulus && r < a
  {
    (a + b) % Modulus
  }

  /** Adding the elapsed time to the start point gives back the end point. */
  lemma AddElapsed(now: U32, since: U32)
    ensures Add(since, Elapsed(now, since)) == now
  {
  }

  /** Measuring from `t` to `t + d` gives back `d`: the two operations are inverses. */
  lemma ElapsedAdd(t: U32, d: U32)
    ensures Elapsed(Add(t, d), t) == d
  {
  }

  /** A deadline `d` after `start`, seen from `now`: the time left until it
      on the wrapping counter is 0 or more than `d` exactly when at least `d`
      has elapsed since `start`, wherever the counter wraps. */
  lemma DeadlinePassed(start: U32, d: U32, now: U32)
    ensures var remaining := Elapsed(Add(start, d), now);
      remaining == 0 || remaining > d <==> Elapsed(now, start) >= d
  {
    var e := Elapsed(now, start);
    var remaining := Elapsed(Add(start, d), now);
    AddElapsed(now, start);
    assert (start + d - now) % Modulus == (d - e) % Modulus;
    if e < d {
      assert remaining == d - e;
    } else if e == d {
      assert remaining == 0;
    } else {
      assert remaining == Modulus + d - e;
    }
  }

  /** `x++` on a `uint8_t`. */
  function IncU8(x: U8): (r: U8)
    ensures x < 0xFF ==> r == x + 1
    ensures x == 0xFF ==> r == 0
  {
    (x + 1) % 0x100
  }

  /** `x++` on a `uint32_t`. */
  function IncU32(x: U32): (r: U32)
    ensures x < Modulus - 1 ==> r == x + 1
    ensures x == Modulus - 1 ==> r == 0
  {
    (x + 1) % Modulus
  }

  /** The conversion of an `int` to `unsigned long` that C applies when the
      two meet in a comparison: two's complement reinterpretation. */
  function ToUnsigned(x: I32): (r: U32)
    ensures 0 <= x ==> r == x
    ensures x < 0 ==> r == x + Modulus && r >= 0x8000_0000
  {
    x % Modulus
  }

  /** C division of `int`s, which truncates toward zero (Dafny's `/` is
      Euclidean). */
  function TruncDiv(a: int, b: int): (q: int)
    requires b > 0
    ensures 0 <= a ==> 0 <= q <= a
    ensures a < 0 ==> a <= q <= 0
  {
    if a >= 0 then
      DivBetweenZeroAnd(a, b);
      a / b
    else
      DivBetweenZeroAnd(-a, b);
      -((-a) / b)
  }

  /** Euclidean division of a non-negative number by a positive one lands
      between zero and the dividend. */
  lemma DivBetweenZeroAnd(a: int, b: int)
    requires 0 <= a
    requires b > 0
    ensures 0 <= a / b <= a
  {
    var q := a / b;
    assert a == q * b + a % b;
    if q < 0 {
      MulMonotone(q, -1, b);
    }
    assert q * b - q == q * (b - 1);
    MulMonotone(0, q, b - 1);
  }

  /** For a non-negative dividend the truncated quotient is the integer part
      of the exact quotient. */
  lemma TruncDivBracket(a: int, b: int)
    requires b > 0
    ensures 0 <= a ==> TruncDiv(a, b) * b <= a < TruncDiv(a, b) * b + b
  {
    if 0 <= a {
      assert a == (a / b) * b + a % b;
    }
  }

  /** A truncated quotient stays between bounds that the dividend respects
      scaled by the divisor: the quotient of a weighted sum of values in
      `[lo, hi]` lies in `[lo, hi]`. */
  lemma TruncDivBetween(a: int, b: int, lo: int, hi: int)
    requires b > 0
    requires lo * b <= a <= hi * b
    ensures lo <= TruncDiv(a, b) <= hi
    decreases if a < 0 then 1 else 0
  {
    if a >= 0 {
      var q := a / b;
      assert a == q * b + a % b;
      assert (q + 1) * b == q * b + b;
      MulCancel(lo, q + 1, b);
      assert (hi + 1) * b == hi * b + b;
      MulCancel(q, hi + 1, b);
    } else {
      assert (-hi) * b == -(hi * b);
      assert (-lo) * b == -(lo * b);
      TruncDivBetween(-a, b, -hi, -lo);
    }
  }

  /** Multiplication by a positive number reflects `<`. */
  lemma MulCancel(x: int, y: int, b: int)
    requires b > 0
    requires x * b < y * b
    ensures x < y
  {
    if x >= y {
      MulMonotone(y, x, b);
    }
  }

  /** Multiplication by a non-negative number preserves `<=`. */
  lemma MulMonotone(x: int, y: int, b: int)
    requires x <= y
    requires b >= 0
    ensures x * b <= y * b
  {
    assert y * b - x * b == (y - x) * b;
  }
}

=== FILE: reinforcement.dfy ===
/**
 The quiet-time reinforcement scheduler (`QuietReinforcementManager`).

 The dog earns a "success" each time it stays quiet for the current level's
 quiet duration. Each success consumes one bit of the level's punch-card
 pattern; a set bit schedules a feeder dispense unless the reward cooldown
 is still running. Enough successes advance the level; a bark restarts the
 quiet window and may demote the level. Level, success count and pattern
 cursor are persisted in a key-value store.

 The object is modelled as an immutable `State` plus pure step functions.
 The clock value, the persistent store and the random number used for
 reshuffling are explicit inputs; the store is returned updated.

 Two variants of the tick are given. `TickAsWritten` follows the firmware
 line by line; `Tick` corrects the two defects that `TickAsWritten` is shown
 to have (see `ReinforcementProperties`): a level-up that keeps a pattern
 cursor the new level cannot index, and a cooldown test that breaks when the
 millisecond counter wraps. `BeginAsWritten` and `Begin` likewise differ in
 clamping a restored pattern cursor.
 */
module Reinforcement {
  import opened Clock

  // ---------------------------------------------------------------- config

  /** One level of the schedule. A null `pattern` pointer and a zero
      `patternLen` are handled identically by the firmware ("always
      reward"), so both are the empty sequence here. */
  datatype LevelConfig = LevelConfig(
    quietMs: U32,
    dispenseMs: U32,
    pattern: seq<U8>,
    shuffleEachCycle: bool)

  /** Construction-time configuration; read-only afterwards except for the
      demotion setting. */
  datatype Config = Config(
    levels: seq<LevelConfig>,
    needSuccesses: U8,
    cooldownMs: U32,
    demotionLevels: U8)

  const DefaultNeedSuccesses: U8 := 4
  const DefaultCooldownMs: U32 := 7000
  const DefaultDemotionLevels: U8 := 0

  /** Minimum spacing of throttled saves. */
  const SaveIntervalMs: U32 := 10000

  /** `levelCount` and `patternLen` are `uint8_t`; the level table must hold
      at least one level because `tick` always indexes it. */
  predicate ValidConfig(cfg: Config) {
    && 0 < |cfg.levels| < 0x100
    && forall i :: 0 <= i < |cfg.levels| ==> |cfg.levels[i].pattern| < 0x100
  }

  /** The constructor with its default arguments. */
  function NewConfig(levels: seq<LevelConfig>): (cfg: Config)
    ensures cfg.levels == levels
    ensures cfg.needSuccesses == 4 && cfg.cooldownMs == 7000 && cfg.demotionLevels == 0
  {
    Config(levels, DefaultNeedSuccesses, DefaultCooldownMs, DefaultDemotionLevels)
  }

  /** `setDemotionLevels`; `getDemotionLevels` is the field itself. */
  function SetDemotionLevels(cfg: Config, n: U8): (r: Config)
    ensures r.demotionLevels == n
    ensures r.levels == cfg.levels && r.needSuccesses == cfg.needSuccesses
    ensures r.cooldownMs == cfg.cooldownMs
  {
    cfg.(demotionLevels := n)
  }

  // ----------------------------------------------------------------- state

  datatype State = State(
    level: U8,
    successes: U8,
    patternIndex: U8,
    quietStartMs: U32,
    lastBarkMs: U32,
    cooldownUntil: U32,
    pendingDispenseMs: U32,
    lastSaveMs: U32)

  /** The field initialisers of a freshly constructed manager. */
  const Initial: State := State(0, 0, 0, 0, 0, 0, 0, 0)

  /** The pattern cursor can be used to read the level's pattern: it is
      below the pattern length, or the pattern is empty and never read. */
  predicate CursorInRange(L: LevelConfig, idx: int) {
    |L.pattern| == 0 || idx < |L.pattern|
  }

  /** What `tick` needs to run without reading outside an array: the level
      indexes the level table and the cursor indexes that level's pattern. */
  predicate Inv(cfg: Config, s: State) {
    && ValidConfig(cfg)
    && s.level < |cfg.levels|
    && CursorInRange(cfg.levels[s.level], s.patternIndex)
  }

  // ----------------------------------------------------------- persistence

  /** The persistent key-value store, one byte per key. */
  type Store = map<string, U8>

  const KeyLevel: string := "lvl"
  const KeySuccesses: string := "succ"
  const KeyPatternIndex: string := "pidx"

  /** `getUChar(key, default)`. */
  function GetUChar(store: Store, key: string, default: U8): (v: U8)
    ensures key in store ==> v == store[key]
    ensures key !in store ==> v == default
  {
    if key in store then store[key] else default
  }

  /** The store holds exactly these three progress values. */
  predicate Holds(store: Store, level: U8, successes: U8, patternIndex: U8) {
    && KeyLevel in store && store[KeyLevel] == level
    && KeySuccesses in store && store[KeySuccesses] == successes
    && KeyPatternIndex in store && store[KeyPatternIndex] == patternIndex
  }

  /** No key other than the three progress keys differs between the stores. */
  ghost predicate OthersUnchanged(before: Store, after: Store) {
    forall k :: k != KeyLevel && k != KeySuccesses && k != KeyPatternIndex ==>
      (k in after <==> k in before) && (k in after ==> after[k] == before[k])
  }

  /** The three `putUChar` calls: writes the given progress values. */
  function Put(store: Store, level: U8, successes: U8, patternIndex: U8): (r: Store)
    ensures Holds(r, level, successes, patternIndex)
    ensures OthersUnchanged(store, r)
  {
    store[KeyLevel := level][KeySuccesses := successes][KeyPatternIndex := patternIndex]
  }

  /** `_saveImmediate`: writes the current progress. */
  function SaveImmediate(s: State, store: Store): (r: Store)
    ensures Holds(r, s.level, s.successes, s.patternIndex)
    ensures OthersUnchanged(store, r)
  {
    Put(store, s.level, s.successes, s.patternIndex)
  }

  /** `_saveThrottled`: saves only when at least `SaveIntervalMs` has passed
      since the last throttled save, and then remembers the time. */
  function SaveThrottled(s: State, store: Store, now: U32): (r: (State, Store))
    ensures Elapsed(now, s.lastSaveMs) >= SaveIntervalMs ==>
      && r.0 == s.(lastSaveMs := now)
      && Holds(r.1, s.level, s.successes, s.patternIndex)
      && OthersUnchanged(store, r.1)
    ensures Elapsed(now, s.lastSaveMs) < SaveIntervalMs ==> r == (s, store)
  {
    if Elapsed(now, s.lastSaveMs) >= SaveIntervalMs then
      (s.(lastSaveMs := now), SaveImmediate(s, store))
    else
      (s, store)
  }

  // ------------------------------------------------------------------ boot

  /** `begin` as written: the level is clamped, the success count and the
      pattern cursor are taken from the store as they are. The volatile
      fields restart at `now`; `lastSaveMs` keeps its initial value. */
  function BeginAsWritten(cfg: Config, store: Store, now: U32): (s: State)
    ensures s.level == (if GetUChar(store, KeyLevel, 0) < |cfg.levels| then GetUChar(store, KeyLevel, 0) else 0)
    ensures s.successes == GetUChar(store, KeySuccesses, 0)
    ensures s.patternIndex == GetUChar(store, KeyPatternIndex, 0)
    ensures s.quietStartMs == now && s.lastBarkMs == now
    ensures s.cooldownUntil == 0 && s.pendingDispenseMs == 0 && s.lastSaveMs == 0
  {
    var stored := GetUChar(store, KeyLevel, 0);
    var level := if stored >= |cfg.levels| then 0 else stored;
    Initial.(
      level := level,
      successes := GetUChar(store, KeySuccesses, 0),
      patternIndex := GetUChar(store, KeyPatternIndex, 0),
      quietStartMs := now,
      lastBarkMs := now,
      cooldownUntil := 0,
      pendingDispenseMs := 0)
  }

  /** `begin` with the restored pattern cursor clamped to 0 when the restored
      level's pattern cannot be indexed with it, as the level is clamped. */
  function Begin(cfg: Config, store: Store, now: U32): (s: State)
    ensures ValidConfig(cfg) ==> Inv(cfg, s)
    ensures s.level == BeginAsWritten(cfg, store, now).level
    ensures s.successes == GetUChar(store, KeySuccesses, 0)
    ensures s.level < |cfg.levels| && CursorInRange(cfg.levels[s.level], GetUChar(store, KeyPatternIndex, 0)) ==>
              s.patternIndex == GetUChar(store, KeyPatternIndex, 0)
    ensures s.level < |cfg.levels| && !CursorInRange(cfg.levels[s.level], GetUChar(store, KeyPatternIndex, 0)) ==>
              s.patternIndex == 0
    ensures s.quietStartMs == now && s.lastBarkMs == now
    ensures s.cooldownUntil == 0 && s.pendingDispenseMs == 0 && s.lastSaveMs == 0
  {
    var s := BeginAsWritten(cfg, store, now);
    if s.level < |cfg.levels| && CursorInRange(cfg.levels[s.level], s.patternIndex) then s
    else s.(patternIndex := 0)
  }

  // ----------------------------------------------------------------- barks

  /** `onBark`: restarts the quiet window, forfeits the successes at this
      level and any undelivered dispense, and, when demotion is configured,
      drops the level (not below 0) and rewinds the pattern. */
  function OnBark(cfg: Config, s: State, store: Store, now: U32): (r: (State, Store))
    ensures r.0.lastBarkMs == now && r.0.quietStartMs == now
    ensures r.0.successes == 0 && r.0.pendingDispenseMs == 0
    ensures r.0.cooldownUntil == s.cooldownUntil
    ensures cfg.demotionLevels > 0 && s.level > 0 ==>
      && r.0.level == (if s.level >= cfg.demotionLevels then s.level - cfg.demotionLevels else 0)
      && r.0.level < s.level
      && r.0.patternIndex == 0
    ensures !(cfg.demotionLevels > 0 && s.level > 0) ==>
      r.0.level == s.level && r.0.patternIndex == s.patternIndex
    ensures Elapsed(now, s.lastSaveMs) >= SaveIntervalMs ==>
      r.0.lastSaveMs == now && Holds(r.1, r.0.level, 0, r.0.patternIndex) && OthersUnchanged(store, r.1)
    ensures Elapsed(now, s.lastSaveMs) < SaveIntervalMs ==>
      r.0.lastSaveMs == s.lastSaveMs && r.1 == store
    ensures Inv(cfg, s) ==> Inv(cfg, r.0)
  {
    var t := s.(lastBarkMs := now, successes := 0, quietStartMs := now, pendingDispenseMs := 0);
    var t' :=
      if cfg.demotionLevels > 0 && s.level > 0 then
        t.(level := if s.level >= cfg.demotionLevels then s.level - cfg.demotionLevels else 0,
           patternIndex := 0)
      else t;
    SaveThrottled(t', store, now)
  }

  // -------------------------------------------------------- pattern reading

  /** `_decideReinforcement` together with `_shufflePattern`: reads the bit
      under the cursor and advances the cursor cyclically. On wrap-around a
      shuffling level restarts at a random index; the random source is the
      arbitrary number `draw`, reduced into `[0, patternLen)`. An empty
      pattern always rewards and leaves the cursor alone. The read demands a
      cursor inside the pattern. */
  function Decide(L: LevelConfig, idx: U8, draw: nat): (r: (bool, U8))
    requires |L.pattern| < 0x100
    requires CursorInRange(L, idx)
    ensures |L.pattern| == 0 ==> r.0 && r.1 == idx
    ensures |L.pattern| > 0 ==> (r.0 <==> L.pattern[idx] != 0)
    ensures |L.pattern| > 0 && idx + 1 < |L.pattern| ==> r.1 == idx + 1
    ensures |L.pattern| > 0 && idx + 1 == |L.pattern| && !L.shuffleEachCycle ==> r.1 == 0
    ensures CursorInRange(L, r.1)
  {
    if |L.pattern| == 0 then
      (true, idx)
    else
      var value := L.pattern[idx];
      var next := idx + 1;
      if next >= |L.pattern| then
        (value != 0, if L.shuffleEachCycle then draw % |L.pattern| else 0)
      else
        (value != 0, next)
  }

  // ----------------------------------------------------------------- ticks

  /** The branch of `tick` for a completed quiet window, before the
      throttled save. Whether the cooldown has run out is passed
      in, since the written and the corrected tick decide it differently. */
  function Qualify(cfg: Config, s: State, now: U32, draw: nat, cooldownOver: bool): (t: State)
    requires Inv(cfg, s)
    ensures var L := cfg.levels[s.level];
            var scheduled := Decide(L, s.patternIndex, draw).0 && cooldownOver;
            && t.patternIndex == Decide(L, s.patternIndex, draw).1
            && (scheduled ==> t.pendingDispenseMs == L.dispenseMs && t.cooldownUntil == Add(now, cfg.cooldownMs))
            && (!scheduled ==> t.pendingDispenseMs == s.pendingDispenseMs && t.cooldownUntil == s.cooldownUntil)
    ensures t.quietStartMs == now
    ensures IncU8(s.successes) < cfg.needSuccesses ==>
      t.successes == IncU8(s.successes) && t.level == s.level
    ensures IncU8(s.successes) >= cfg.needSuccesses ==>
      t.successes == 0 && t.level == (if s.level + 1 < |cfg.levels| then s.level + 1 else s.level)
    ensures t.level < |cfg.levels| && s.level <= t.level <= s.level + 1
    ensures t.lastBarkMs == s.lastBarkMs && t.lastSaveMs == s.lastSaveMs
  {
    var L := cfg.levels[s.level];
    var (reward, idx) := Decide(L, s.patternIndex, draw);
    var succ := IncU8(s.successes);
    var scheduled := reward && cooldownOver;
    var levelUp := succ >= cfg.needSuccesses;
    s.(
      patternIndex := idx,
      successes := if levelUp then 0 else succ,
      pendingDispenseMs := if scheduled then L.dispenseMs else s.pendingDispenseMs,
      cooldownUntil := if scheduled then Add(now, cfg.cooldownMs) else s.cooldownUntil,
      quietStartMs := now,
      level := if levelUp && s.level + 1 < |cfg.levels| then s.level + 1 else s.level)
  }

  /** The cooldown test of `tick` as written: a plain comparison against a
      deadline that was computed with a wrapping addition. For a deadline
      set `c` after a reward at `rewardTime`, it measures the cooldown
      correctly only while neither the deadline nor `now` has wrapped past
      the reward; a wrapped deadline passes at once, and once `now` has
      wrapped an unwrapped deadline never passes. */
  function CooldownOverAsWritten(now: U32, cooldownUntil: U32): (over: bool)
    ensures forall rewardTime: U32, c: U32 {:trigger Add(rewardTime, c)} ::
      cooldownUntil == Add(rewardTime, c) && rewardTime + c < Modulus && rewardTime <= now ==>
        (over <==> Elapsed(now, rewardTime) >= c)
    ensures forall rewardTime: U32, c: U32 {:trigger Add(rewardTime, c)} ::
      cooldownUntil == Add(rewardTime, c) && rewardTime + c >= Modulus && rewardTime <= now ==> over
    ensures forall rewardTime: U32, c: U32 {:trigger Add(rewardTime, c)} ::
      cooldownUntil == Add(rewardTime, c) && rewardTime + c < Modulus && now < rewardTime ==> !over
  {
    now >= cooldownUntil
  }

  /** A wrap-safe cooldown test against the same stored deadline. The reward
      that set the deadline happened `cooldownMs` before it, at
      `Elapsed(cooldownUntil, cooldownMs)`; the test passes exactly when at
      least `cooldownMs` has elapsed since that reward. It does so by
      checking that the time left until the deadline, on the wrapping
      counter, is 0 or more than the cooldown itself. */
  function CooldownOver(now: U32, cooldownUntil: U32, cooldownMs: U32): (over: bool)
    ensures over <==> Elapsed(now, Elapsed(cooldownUntil, cooldownMs)) >= cooldownMs
  {
    var rewardTime := Elapsed(cooldownUntil, cooldownMs);
    AddElapsed(cooldownUntil, cooldownMs);
    DeadlinePassed(rewardTime, cooldownMs, now);
    var remaining := Elapsed(cooldownUntil, now);
    remaining == 0 || remaining > cooldownMs
  }

  /** The outcome of a tick: the new state and store, and whether a
      dispense was just decided (the return value of `tick`). */
  datatype TickResult = TickResult(state: State, store: Store, decided: bool)

  /** `tick` as written. */
  function TickAsWritten(cfg: Config, s: State, store: Store, now: U32, draw: nat): (r: TickResult)
    requires Inv(cfg, s)
    ensures s.pendingDispenseMs > 0 ==> r == TickResult(s, store, false)
    ensures Elapsed(now, s.quietStartMs) < cfg.levels[s.level].quietMs ==> r == TickResult(s, store, false)
    ensures s.pendingDispenseMs == 0 && Elapsed(now, s.quietStartMs) >= cfg.levels[s.level].quietMs ==>
      var L := cfg.levels[s.level];
      var scheduled := Decide(L, s.patternIndex, draw).0 && now >= s.cooldownUntil;
      && r.state.quietStartMs == now
      && (scheduled ==> r.state.pendingDispenseMs == L.dispenseMs && r.state.cooldownUntil == Add(now, cfg.cooldownMs))
      && (!scheduled ==> r.state.pendingDispenseMs == 0 && r.state.cooldownUntil == s.cooldownUntil)
      && r.state.patternIndex == Decide(L, s.patternIndex, draw).1
    ensures s.pendingDispenseMs == 0 && Elapsed(now, s.quietStartMs) >= cfg.levels[s.level].quietMs ==>
      var levelUp := IncU8(s.successes) >= cfg.needSuccesses;
      && r.state.successes == (if levelUp then 0 else IncU8(s.successes))
      && r.state.level == (if levelUp && s.level + 1 < |cfg.levels| then s.level + 1 else s.level)
      && r.state.lastBarkMs == s.lastBarkMs
      && (Elapsed(now, s.lastSaveMs) >= SaveIntervalMs ==>
            && r.state.lastSaveMs == now
            && Holds(r.store, r.state.level, r.state.successes, r.state.patternIndex)
            && OthersUnchanged(store, r.store))
      && (Elapsed(now, s.lastSaveMs) < SaveIntervalMs ==>
            r.state.lastSaveMs == s.lastSaveMs && r.store == store)
    ensures r.decided <==> s.pendingDispenseMs == 0 && r.state.pendingDispenseMs > 0
    ensures r.state.level < |cfg.levels|
  {
    if s.pendingDispenseMs > 0 then
      TickResult(s, store, false)
    else if Elapsed(now, s.quietStartMs) >= cfg.levels[s.level].quietMs then
      var t := Qualify(cfg, s, now, draw, CooldownOverAsWritten(now, s.cooldownUntil));
      var (t', store') := SaveThrottled(t, store, now);
      TickResult(t', store', t'.pendingDispenseMs > 0)
    else
      TickResult(s, store, false)
  }

  /** `tick` with the two corrections: the cooldown test is wrap-safe and a
      level change rewinds the pattern cursor, as `onBark` and `setLevel`
      already do. */
  function Tick(cfg: Config, s: State, store: Store, now: U32, draw: nat): (r: TickResult)
    requires Inv(cfg, s)
    ensures Inv(cfg, r.state)
    ensures s.level <= r.state.level <= s.level + 1
    ensures s.pendingDispenseMs > 0 ==> r == TickResult(s, store, false)
    ensures Elapsed(now, s.quietStartMs) < cfg.levels[s.level].quietMs ==> r == TickResult(s, store, false)
    ensures s.pendingDispenseMs == 0 && Elapsed(now, s.quietStartMs) >= cfg.levels[s.level].quietMs ==>
      var L := cfg.levels[s.level];
      var scheduled := Decide(L, s.patternIndex, draw).0 && CooldownOver(now, s.cooldownUntil, cfg.cooldownMs);
      && r.state.quietStartMs == now
      && (scheduled ==> r.state.pendingDispenseMs == L.dispenseMs && r.state.cooldownUntil == Add(now, cfg.cooldownMs))
      && (!scheduled ==> r.state.pendingDispenseMs == 0 && r.state.cooldownUntil == s.cooldownUntil)
      && (r.state.level == s.level ==> r.state.patternIndex == Decide(L, s.patternIndex, draw).1)
      && (r.state.level != s.level ==> r.state.patternIndex == 0)
    ensures s.pendingDispenseMs == 0 && Elapsed(now, s.quietStartMs) >= cfg.levels[s.level].quietMs ==>
      var levelUp := IncU8(s.successes) >= cfg.needSuccesses;
      && r.state.successes == (if levelUp then 0 else IncU8(s.successes))
      && r.state.level == (if levelUp && s.level + 1 < |cfg.levels| then s.level + 1 else s.level)
      && r.state.lastBarkMs == s.lastBarkMs
      && (Elapsed(now, s.lastSaveMs) >= SaveIntervalMs ==>
            && r.state.lastSaveMs == now
            && Holds(r.store, r.state.level, r.state.successes, r.state.patternIndex)
            && OthersUnchanged(store, r.store))
      && (Elapsed(now, s.lastSaveMs) < SaveIntervalMs ==>
            r.state.lastSaveMs == s.lastSaveMs && r.store == store)
    ensures r.decided <==> s.pendingDispenseMs == 0 && r.state.pendingDispenseMs > 0
  {
    if s.pendingDispenseMs > 0 then
      TickResult(s, store, false)
    else if Elapsed(now, s.quietStartMs) >= cfg.levels[s.level].quietMs then
      var q := Qualify(cfg, s, now, draw, CooldownOver(now, s.cooldownUntil, cfg.cooldownMs));
      var t := if q.level != s.level then q.(patternIndex := 0) else q;
      var (t', store') := SaveThrottled(t, store, now);
      TickResult(t', store', t'.pendingDispenseMs > 0)
    else
      TickResult(s, store, false)
  }

  // -------------------------------------------------- dispense and control

  /** `consumePendingDispenseMs`: hands out the pending dispense and clears
      it. */
  function ConsumePendingDispense(s: State): (r: (State, U32))
    ensures r.1 == s.pendingDispenseMs
    ensures r.0.pendingDispenseMs == 0
    ensures r.0.(pendingDispenseMs := s.pendingDispenseMs) == s
  {
    (s.(pendingDispenseMs := 0), s.pendingDispenseMs)
  }

  /** `setLevel`: ignored for an index outside the table; otherwise jumps to
      the level with a fresh quiet window and pattern, and saves at once. */
  function SetLevel(cfg: Config, s: State, store: Store, lvl: U8, now: U32): (r: (State, Store))
    ensures lvl >= |cfg.levels| ==> r == (s, store)
    ensures lvl < |cfg.levels| ==>
      && r.0.level == lvl && r.0.successes == 0 && r.0.patternIndex == 0
      && r.0.quietStartMs == now
      && r.0.lastBarkMs == s.lastBarkMs && r.0.cooldownUntil == s.cooldownUntil
      && r.0.pendingDispenseMs == s.pendingDispenseMs && r.0.lastSaveMs == s.lastSaveMs
      && Holds(r.1, lvl, 0, 0) && OthersUnchanged(store, r.1)
    ensures ValidConfig(cfg) && (Inv(cfg, s) || lvl < |cfg.levels|) ==> Inv(cfg, r.0)
  {
    if lvl >= |cfg.levels| then
      (s, store)
    else
      var t := s.(level := lvl, successes := 0, patternIndex := 0, quietStartMs := now);
      (t, SaveImmediate(t, store))
  }

  /** `resetState`: back to level 0 with nothing pending, no cooldown and
      zeros in the store. `now` is the clock reading the firmware takes. */
  function ResetState(s: State, store: Store, now: U32): (r: (State, Store))
    ensures r.0.level == 0 && r.0.successes == 0 && r.0.patternIndex == 0
    ensures r.0.quietStartMs == now && r.0.lastBarkMs == now
    ensures r.0.cooldownUntil == 0 && r.0.pendingDispenseMs == 0 && r.0.lastSaveMs == 0
    ensures Holds(r.1, 0, 0, 0) && OthersUnchanged(store, r.1)
    ensures forall cfg: Config :: ValidConfig(cfg) ==> Inv(cfg, r.0)
  {
    (State(0, 0, 0, now, now, 0, 0, 0), Put(store, 0, 0, 0))
  }

  /** `currentQuietTargetMs`. */
  function CurrentQuietTargetMs(cfg: Config, s: State): (ms: U32)
    requires s.level < |cfg.levels|
  {
    cfg.levels[s.level].quietMs
  }
}

=== FILE: reinforcement_properties.dfy ===
/**
 Properties of the reinforcement scheduler that relate several operations:
 the punch-card cycle, persistence round trips, the dispense hand-off, the
 cooldown spacing, the invariant along any sequence of events, and the
 three defects of the firmware as written.
 */
module ReinforcementProperties {
  import opened Clock
  import opened Reinforcement

  // ------------------------------------------------------ punch-card cycle

  /** The bits that `k` successive qualifying ticks read from a level that
      does not shuffle, starting at cursor `idx`, and the cursor after them. */
  function ReadBits(L: LevelConfig, idx: U8, k: nat): (r: (seq<bool>, U8))
    requires |L.pattern| < 0x100 && !L.shuffleEachCycle
    requires CursorInRange(L, idx)
    ensures |r.0| == k
    ensures CursorInRange(L, r.1)
    decreases k
  {
    if k == 0 then ([], idx)
    else
      var (b, next) := Decide(L, idx, 0);
      var (rest, last) := ReadBits(L, next, k - 1);
      ([b] + rest, last)
  }

  /** Reading from cursor `idx` yields the pattern's bits from `idx` on, in
      order, and the cursor wraps to 0 exactly after the last bit. */
  lemma {:induction false} ReadBitsFollowsPattern(L: LevelConfig, idx: U8, k: nat)
    requires |L.pattern| < 0x100 && !L.shuffleEachCycle
    requires idx + k <= |L.pattern|
    requires idx < |L.pattern|
    ensures forall i :: 0 <= i < k ==> ReadBits(L, idx, k).0[i] == (L.pattern[idx + i] != 0)
    ensures ReadBits(L, idx, k).1 == (if idx + k == |L.pattern| then 0 else idx + k)
    decreases k
  {
    if k > 0 {
      var (b, next) := Decide(L, idx, 0);
      if idx + 1 < |L.pattern| {
        ReadBitsFollowsPattern(L, next, k - 1);
      } else {
        assert k == 1 && next == 0;
      }
    }
  }

  /** One full cycle from the start of a non-shuffling pattern consumes every
      bit exactly once, in order, and leaves the cursor at the start again:
      the punch card repeats with the pattern's length as its period. */
  lemma FullCycle(L: LevelConfig)
    requires 0 < |L.pattern| < 0x100 && !L.shuffleEachCycle
    ensures forall i :: 0 <= i < |L.pattern| ==>
      ReadBits(L, 0, |L.pattern|).0[i] == (L.pattern[i] != 0)
    ensures ReadBits(L, 0, |L.pattern|).1 == 0
  {
    ReadBitsFollowsPattern(L, 0, |L.pattern|);
  }

  /** On wrap-around a shuffling level can restart at any index of its
      pattern (that it restarts only at one of those is part of `Decide`'s
      contract). */
  lemma ShuffleReachesEveryIndex(L: LevelConfig, k: nat)
    requires 0 < |L.pattern| < 0x100 && L.shuffleEachCycle
    requires k < |L.pattern|
    ensures Decide(L, |L.pattern| - 1, k).1 == k
  {
    var n := |L.pattern|;
    assert k / n == 0;
    assert k % n == k;
  }

  // ------------------------------------------------------------ persistence

  /** Whatever the firmware saves from a consistent state is restored
      unchanged by the next boot. */
  lemma SavedProgressSurvivesRestart(cfg: Config, s: State, store: Store, now: U32)
    requires Inv(cfg, s)
    ensures var b := Begin(cfg, SaveImmediate(s, store), now);
      b.level == s.level && b.successes == s.successes && b.patternIndex == s.patternIndex
  {
  }

  /** A manual level change is durable at once: a boot right after it
      restores the chosen level with no successes and a rewound pattern. */
  lemma SetLevelSurvivesRestart(cfg: Config, s: State, store: Store, lvl: U8, now: U32, bootTime: U32)
    requires ValidConfig(cfg)
    requires lvl < |cfg.levels|
    ensures var b := Begin(cfg, SetLevel(cfg, s, store, lvl, now).1, bootTime);
      b.level == lvl && b.successes == 0 && b.patternIndex == 0
  {
  }

  /** A reset is durable at once: a boot right after it starts from level 0
      with no successes. */
  lemma ResetSurvivesRestart(cfg: Config, s: State, store: Store, now: U32, bootTime: U32)
    requires ValidConfig(cfg)
    ensures var b := Begin(cfg, ResetState(s, store, now).1, bootTime);
      b.level == 0 && b.successes == 0 && b.patternIndex == 0
  {
  }

  /** A store is consistent when the progress it holds could be restored
      without clamping the level or the pattern cursor. An empty store is
      consistent for every valid configuration. */
  predicate StoreConsistent(cfg: Config, store: Store) {
    var lvl := GetUChar(store, KeyLevel, 0);
    lvl < |cfg.levels| && CursorInRange(cfg.levels[lvl], GetUChar(store, KeyPatternIndex, 0))
  }

  /** On a consistent store the corrected boot and the boot as written agree:
      the clamp only matters for progress this configuration did not write. */
  lemma BeginClampOnlyForForeignStores(cfg: Config, store: Store, now: U32)
    requires StoreConsistent(cfg, store)
    ensures Begin(cfg, store, now) == BeginAsWritten(cfg, store, now)
  {
  }

  // ------------------------------------------------------ dispense hand-off

  /** A dispense decided by a tick is handed out once, for the level's
      duration; asking again straight away yields nothing. */
  lemma DecidedDispenseIsConsumedOnce(cfg: Config, s: State, store: Store, now: U32, draw: nat)
    requires Inv(cfg, s)
    requires Tick(cfg, s, store, now, draw).decided
    ensures var t := Tick(cfg, s, store, now, draw).state;
      && ConsumePendingDispense(t).1 == cfg.levels[s.level].dispenseMs > 0
      && ConsumePendingDispense(ConsumePendingDispense(t).0).1 == 0
  {
  }

  /** While a dispense waits to be consumed, ticks change nothing, so at
      most one dispense is ever outstanding. */
  lemma PendingDispenseBlocksTicks(cfg: Config, s: State, store: Store, now: U32, draw: nat)
    requires Inv(cfg, s)
    requires s.pendingDispenseMs > 0
    ensures Tick(cfg, s, store, now, draw) == TickResult(s, store, false)
    ensures TickAsWritten(cfg, s, store, now, draw) == TickResult(s, store, false)
  {
  }

  // --------------------------------------------------------------- cooldown

  /** The corrected cooldown test, applied to the deadline stored for a
      reward at `rewardTime`, passes exactly when at least `cooldownMs` has
      elapsed since that reward, at any position of the wrapping counter. */
  lemma CooldownOverIffElapsed(rewardTime: U32, now: U32, cooldownMs: U32)
    ensures CooldownOver(now, Add(rewardTime, cooldownMs), cooldownMs)
        <==> Elapsed(now, rewardTime) >= cooldownMs
  {
    ElapsedAdd(rewardTime, cooldownMs);
  }

  /** With the corrected tick, a dispense is decided only once the cooldown
      of the previous one has fully elapsed. */
  lemma DispensesAreSpaced(cfg: Config, s: State, store: Store, rewardTime: U32, now: U32, draw: nat)
    requires Inv(cfg, s)
    requires s.cooldownUntil == Add(rewardTime, cfg.cooldownMs)
    requires Tick(cfg, s, store, now, draw).decided
    ensures Elapsed(now, rewardTime) >= cfg.cooldownMs
  {
    CooldownOverIffElapsed(rewardTime, now, cfg.cooldownMs);
  }

  // ---------------------------------------------------- sequences of events

  /** The calls the firmware's main loop makes, and a power cycle. */
  datatype Event =
    | Bark(now: U32)
    | TickAt(now: U32, draw: nat)
    | Consume
    | SetLevelTo(lvl: U8, now: U32)
    | Reset(now: U32)
    | Restart(now: U32)

  /** The volatile state together with the persistent store. */
  datatype Device = Device(state: State, store: Store)

  predicate DeviceInv(cfg: Config, d: Device) {
    Inv(cfg, d.state) && StoreConsistent(cfg, d.store)
  }

  /** One event. A restart loses the volatile state and boots from the
      store. The store need not be one this configuration wrote: the state
      invariant holds regardless, and a consistent store stays consistent. */
  function Step(cfg: Config, d: Device, e: Event): (d': Device)
    requires ValidConfig(cfg) && Inv(cfg, d.state)
    ensures Inv(cfg, d'.state)
    ensures StoreConsistent(cfg, d.store) ==> StoreConsistent(cfg, d'.store)
    ensures e.Restart? ==> d'.store == d.store
    ensures e.Consume? ==> d'.state.pendingDispenseMs == 0 && d'.store == d.store
  {
    match e
    case Bark(now) =>
      var (s, st) := OnBark(cfg, d.state, d.store, now);
      Device(s, st)
    case TickAt(now, draw) =>
      var r := Tick(cfg, d.state, d.store, now, draw);
      Device(r.state, r.store)
    case Consume =>
      Device(ConsumePendingDispense(d.state).0, d.store)
    case SetLevelTo(lvl, now) =>
      var (s, st) := SetLevel(cfg, d.state, d.store, lvl, now);
      Device(s, st)
    case Reset(now) =>
      var (s, st) := ResetState(d.state, d.store, now);
      Device(s, st)
    case Restart(now) =>
      Device(Begin(cfg, d.store, now), d.store)
  }

  /** Any sequence of events keeps the level inside the level table and the
      pattern cursor inside the level's pattern, so every pattern read is in
      bounds; a store that was restorable without clamping stays so. */
  function Run(cfg: Config, d: Device, events: seq<Event>): (d': Device)
    requires ValidConfig(cfg) && Inv(cfg, d.state)
    ensures Inv(cfg, d'.state)
    ensures StoreConsistent(cfg, d.store) ==> StoreConsistent(cfg, d'.store)
    decreases |events|
  {
    if |events| == 0 then d
    else Run(cfg, Step(cfg, d, events[0]), events[1..])
  }

  /** A device booted from any store, even one holding values this
      configuration never wrote, satisfies the invariant; any run of events
      from that boot, with the store left as it was, keeps it; and the first
      save makes the store consistent. */
  lemma BootEstablishesInvariant(cfg: Config, store: Store, now: U32, events: seq<Event>)
    requires ValidConfig(cfg)
    ensures Inv(cfg, Begin(cfg, store, now))
    ensures Inv(cfg, Run(cfg, Device(Begin(cfg, store, now), store), events).state)
    ensures DeviceInv(cfg, Device(Begin(cfg, store, now), SaveImmediate(Begin(cfg, store, now), store)))
  {
  }

  // ------------------------------------------------------- worked scenario

  /** Level 0 needs 2000 ms of quiet and rewards every success; the cooldown
      is 7000 ms. Ticking every 2000 ms from boot at 0 and consuming each
      dispense: the first tick rewards, the cooldown (until 9000) blocks the
      ticks at 4000, 6000 and 8000, and the fourth success promotes to
      level 1 with a rewound pattern. */
  lemma QuietScheduleScenario()
    ensures var cfg := Config([LevelConfig(2000, 500, [1, 1, 1, 1], false),
                               LevelConfig(4000, 500, [1], false)], 4, 7000, 0);
      var b := Begin(cfg, map[], 0);
      var r1 := Tick(cfg, b, map[], 2000, 0);
      var c1 := ConsumePendingDispense(r1.state);
      var r2 := Tick(cfg, c1.0, r1.store, 4000, 0);
      var r3 := Tick(cfg, r2.state, r2.store, 6000, 0);
      var r4 := Tick(cfg, r3.state, r3.store, 8000, 0);
      && r1.decided && c1.1 == 500 && r1.state.cooldownUntil == 9000
      && !r2.decided && !r3.decided && !r4.decided
      && r3.state.level == 0 && r3.state.successes == 3 && r3.state.patternIndex == 3
      && r4.state.level == 1 && r4.state.successes == 0 && r4.state.patternIndex == 0
  {
  }

  /** The same schedule with the tick and boot as written: the counter
      does not wrap and the pattern cycle ends with the level, so the
      firmware behaves exactly as the corrected model does here. */
  lemma QuietScheduleScenarioAsWritten()
    ensures var cfg := Config([LevelConfig(2000, 500, [1, 1, 1, 1], false),
                               LevelConfig(4000, 500, [1], false)], 4, 7000, 0);
      var b := BeginAsWritten(cfg, map[], 0);
      var r1 := TickAsWritten(cfg, b, map[], 2000, 0);
      var c1 := ConsumePendingDispense(r1.state);
      var r2 := TickAsWritten(cfg, c1.0, r1.store, 4000, 0);
      var r3 := TickAsWritten(cfg, r2.state, r2.store, 6000, 0);
      var r4 := TickAsWritten(cfg, r3.state, r3.store, 8000, 0);
      && r1.decided && c1.1 == 500 && r1.state.cooldownUntil == 9000
      && !r2.decided && !r3.decided && !r4.decided
      && r3.state.level == 0 && r3.state.successes == 3 && r3.state.patternIndex == 3
      && r4.state.level == 1 && r4.state.successes == 0 && r4.state.patternIndex == 0
  {
  }

  /** `currentQuietTargetMs` is the quiet time a tick waits for: with
      nothing pending, a tick before it changes nothing, and a tick at or
      after it counts a success and restarts the quiet window. */
  lemma QuietTargetGovernsTick(cfg: Config, s: State, store: Store, now: U32, draw: nat)
    requires Inv(cfg, s) && s.pendingDispenseMs == 0
    ensures Elapsed(now, s.quietStartMs) < CurrentQuietTargetMs(cfg, s) ==>
      Tick(cfg, s, store, now, draw) == TickResult(s, store, false)
    ensures Elapsed(now, s.quietStartMs) >= CurrentQuietTargetMs(cfg, s) ==>
      && Tick(cfg, s, store, now, draw).state.quietStartMs == now
      && Tick(cfg, s, store, now, draw).state.successes
         == (if IncU8(s.successes) >= cfg.needSuccesses then 0 else IncU8(s.successes))
  {
  }

  // ------------------------------------------------- defects as written

  /** As written, a level-up keeps the cursor. With one success per level,
      a two-bit pattern at level 0 and a one-bit pattern at level 1, the
      first qualifying tick leaves the cursor at 1 on level 1, so the next
      tick would read past the end of level 1's pattern. The corrected tick
      rewinds the cursor. */
  lemma LevelUpLeavesCursorOutOfRange()
    ensures var cfg := Config([LevelConfig(1000, 500, [1, 1], false),
                               LevelConfig(1000, 500, [1], false)], 1, 7000, 0);
      var s := Begin(cfg, map[], 0);
      && Inv(cfg, s)
      && TickAsWritten(cfg, s, map[], 1000, 0).state.level == 1
      && TickAsWritten(cfg, s, map[], 1000, 0).state.patternIndex == 1
      && !Inv(cfg, TickAsWritten(cfg, s, map[], 1000, 0).state)
      && Tick(cfg, s, map[], 1000, 0).state.patternIndex == 0
  {
  }

  /** As written, the boot keeps a stored cursor that the restored level's
      pattern cannot index (here 7 for a two-bit pattern). */
  lemma RestoredCursorOutOfRange()
    ensures var cfg := Config([LevelConfig(1000, 500, [1, 0], false)], 4, 7000, 0);
      var store := map[KeyPatternIndex := 7];
      && BeginAsWritten(cfg, store, 0).patternIndex == 7
      && !Inv(cfg, BeginAsWritten(cfg, store, 0))
      && Inv(cfg, Begin(cfg, store, 0))
  {
  }

  /** As written, the cooldown test goes wrong on both sides of the counter
      wrap. A reward at 4294960000 stores the deadline 4294967000; after the
      counter wraps, the tick at 5000 (12296 ms later) is still refused, and
      it stays refused until the counter climbs back to 4294967000, some
      49 days later. A reward at 4294967000 stores the wrapped deadline 6704,
      so a tick 290 ms later already passes. */
  lemma CooldownAsWrittenMisjudgesWrap()
    ensures Add(4294960000, 7000) == 4294967000
    ensures Elapsed(5000, 4294960000) == 12296
    ensures !CooldownOverAsWritten(5000, Add(4294960000, 7000))
    ensures CooldownOver(5000, Add(4294960000, 7000), 7000)
    ensures Add(4294967000, 7000) == 6704
    ensures Elapsed(4294967290, 4294967000) == 290
    ensures CooldownOverAsWritten(4294967290, Add(4294967000, 7000))
    ensures !CooldownOver(4294967290, Add(4294967000, 7000), 7000)
  {
  }

  /** The starved reward in terms of whole ticks: a level that always
      rewards, quiet long enough, 12296 ms past the last reward across the
      wrap. The tick as written decides nothing; the corrected one
      dispenses. */
  lemma TickAsWrittenStarvesAfterWrap()
    ensures var cfg := Config([LevelConfig(1000, 500, [], false)], 4, 7000, 0);
      var s := State(0, 0, 0, 0, 0, 4294967000, 0, 0);
      && Inv(cfg, s)
      && !TickAsWritten(cfg, s, map[], 5000, 0).decided
      && Tick(cfg, s, map[], 5000, 0).decided
  {
  }
}
